=== FILE: README.md ===
# RAG product recommender: ingredient enrichment and product texts

A functional Dafny model of the two pieces of the recommender's own logic:

- **Ingredient enrichment** (`rag_recommend.py`). `get_ingredient_info` keeps
  the ingredients that are keys of the ingredient knowledge base and turns each
  into a `{name, properties, common_effects}` record, with `"Unknown"` and `[]`
  standing in for fields the knowledge-base entry lacks. Before prompting the
  language model, `generate_llm_recommendation` copies every retrieved product
  and attaches that list under `enriched_ingredients`.
- **Product texts for the vector index** (`create_vector_db.py`). Every catalog
  product becomes the text
  `name. description Effects: e1, e2. Ingredients: i1, i2.`, which is then
  embedded. The catalog list itself is saved as the index metadata, so
  metadata position `i` belongs to vector `i`.

Products are JSON values as `json.load`/`pickle.load` hand them over. A JSON
object is a Python dict, which keeps insertion order, so it is modelled as an
ordered list of fields (`JsonValues.Json`, `JsonValues.Field`). `{**product, k: v}` is
modelled by `JsonValues.Update`: an existing key keeps its place and gets the new
value, and a new key goes last. The exceptions the comprehensions can raise are
`Err` results (`Python.PyError`):

- `KeyError` for a missing key;
- `TypeError` for subscripting or `**`-unpacking a non-dict;
- `TypeError` for iterating null, a bool or a number;
- `TypeError` for joining a non-str item;
- `TypeError` for looking up a list or dict in the knowledge base.

A comprehension stops at the first element that raises (`Python.MapAll`).
Within one element the model follows the evaluation order of Python 3.9 and
later (for example, the dict display merges `**product` before it evaluates
`product["ingredients"]`), so the error reported is the one such a Python
raises first. Python 3.8 evaluates the value first, so for a non-dict product
it raises the subscript `TypeError` rather than the `**` one. The two differ
only in the `TypeProblem` tag.

JSON numbers are `JInt` or `JFloat`, as `json.load` makes them `int` or
`float`, because the two print differently inside the f-string.

The knowledge base is a `map<string, KBEntry>`. Each entry has an optional
`properties` text and an optional `common_effects` list.

Modules, leaf first:

- `Options`
- `Text`: join, find, split
- `JsonValues`: values, ordered dicts
- `Python`: subscript, iteration, join, f-string fields, comprehensions
- `Knowledge`: `get_ingredient_info`
- `Enrichment`: the product enrichment
- `CatalogText`: the product text and its parser
- `VectorDb`: texts, vectors and metadata

### Matching

- Lookup is exact, case-sensitive dict membership (`rag_recommend.py:30`).
- Unmatched ingredients are dropped: they get no placeholder record.

The `.get(ing, {})` fallback in `rag_recommend.py:27-28` cannot fire after that
filter. `Knowledge.Describe` models it anyway. `"Unknown"` can therefore only
come from a matched entry that has no `properties`, or whose `properties` text
is literally `"Unknown"`.

## Model

| member | source | states |
|---|---|---|
| `Knowledge.Describe` | rag_recommend.py:25-29 | the record keeps the ingredient name unchanged; `properties` is "Unknown" if and only if the entry lacks the field or holds "Unknown"; otherwise it is the entry's field; `common_effects` is the entry's field, or `[]` when absent |
| `Knowledge.IngredientInfo` | rag_recommend.py:22-31 | never longer than the input; every record's name is a key of the knowledge base and the record describes that key's entry |
| `Knowledge.IngredientInfoAppend` | rag_recommend.py:24-31 | the result for `a + b` is the result for `a` followed by the result for `b`, so input order is kept |
| `Knowledge.IngredientInfoCounts` | rag_recommend.py:30 | each name occurs in the output as often as in the input if it is a key, and never otherwise, so duplicates are kept and unknown names dropped |
| `Knowledge.IngredientInfoMembership` | rag_recommend.py:26-30 | a name is in the output if and only if it is an input and an exact (case-sensitive) key |
| `Knowledge.IngredientInfoKeepsAll` | rag_recommend.py:24-31 | the output is as long as the input if and only if every ingredient is a key |
| `Knowledge.IngredientInfoAllKnown` | rag_recommend.py:24-31 | when every ingredient is a key, output `i` describes input `i` |
| `Knowledge.IngredientInfoUnknownDropped` | rag_recommend.py:30 | appending a name that is not a key (for example a differently capitalised one) leaves the result unchanged: no placeholder |
| `Enrichment.IngredientInfoOf` | rag_recommend.py:24-31 | `get_ingredient_info` on any JSON value succeeds if and only if the value is iterable and all its items are hashable; otherwise it raises the `TypeError` for whichever of those fails; on success the records are those of the str items it iterates, in order: a list's str items (a null, bool or number is never a key), a str's characters, or a dict's keys |
| `Enrichment.IngredientJson` | rag_recommend.py:25-29 | each record is a dict with exactly the keys `name`, `properties`, `common_effects`, in that order, holding the ingredient name, its properties text and its effects list |
| `Enrichment.InfoJson` | rag_recommend.py:24-31 | the attached list holds one record dict per enriched ingredient, in order, each holding that ingredient's name, its `properties` text and its `common_effects` list, so the values `Knowledge.Describe` fixes reach the product's `enriched_ingredients` |
| `Enrichment.StrItemsAppend` | rag_recommend.py:30 | the items that can match a key are kept in input order: those of `a + b` are those of `a`, then those of `b` |
| `Enrichment.StrItemsSingle` | rag_recommend.py:30 | a single item can match a key exactly when it is a str |
| `Enrichment.EnrichProduct` | rag_recommend.py:38-41 | a non-dict product raises `TypeError` and one without `ingredients` raises `KeyError`; when `get_ingredient_info` raises, its `TypeError` is what the product raises; on success `enriched_ingredients` holds the info for the product's own `ingredients`, every other key keeps its value, keys keep their order (the new key goes last if it was absent), and unique keys stay unique |
| `Enrichment.EnrichProducts` | rag_recommend.py:37-43 | succeeds if and only if every product can be enriched; then it gives exactly one enriched product per retrieved product, in order, and otherwise the first failing product's error |
| `Enrichment.EnrichProductOfStrList` | rag_recommend.py:40 | for a list-of-str `ingredients`, the attached list is `get_ingredient_info` of exactly that list, and every other field is unchanged |
| `Enrichment.EnrichProductIdempotent` | rag_recommend.py:39-40 | enriching an enriched product gives the same product again: only `enriched_ingredients` is added or overwritten |
| `JsonValues.Update` | rag_recommend.py:39-40 | `{**d, k: v}` maps `k` to `v` and every other key as `d` does; an existing key keeps its place and a new one is appended; unique keys stay unique |
| `Python.Subscript` | create_vector_db.py:16 | `p[key]` succeeds if and only if `p` is a dict holding `key`; it raises `KeyError` for a missing key and `TypeError` for a non-dict |
| `Python.Iterate` | rag_recommend.py:30 | only lists, strs and dicts can be iterated: a list yields its items, a str its characters as one-character strs, a dict its keys, each in order |
| `Python.StrJoin` | create_vector_db.py:16 | `", ".join(v)` succeeds if and only if `v` is iterable and every item is a str; a non-iterable raises the iteration `TypeError`, and a non-str item raises the `TypeError` for a non-str; on success the text is the visited strs (a list's items, a str's characters, a dict's keys) joined in order with `sep` between neighbours |
| `Python.MapAll` | create_vector_db.py:15-18 | a comprehension whose step may raise succeeds if and only if every step does; its result is then elementwise, in order, and otherwise it raises the first failing element's exception |
| `Text.JoinEnds` | create_vector_db.py:16 | `", ".join(xs)` is "" for an empty list; otherwise it starts with the first item, then the separator when there is a second item, and ends with the last item (`Text.SplitJoin` inverts it) |
| `Text.SplitJoin` | create_vector_db.py:16 | splitting a non-empty joined list at ", " gives the list back when no item contains ", " |
| `Text.SplitListJoin` | create_vector_db.py:16 | the same for any list, the empty one included (it joins to the empty text), when no item is empty |
| `CatalogText.ProductText` | create_vector_db.py:16 | a product's text exists if and only if the product is a dict with `name`, `description`, and joinable `effects` and `ingredients`; otherwise it raises what the f-string raises first: `TypeError` for a non-dict, then `KeyError` for `name`, `description`, `effects`, then the join error of `effects`, then `KeyError` for `ingredients`, then the join error of `ingredients` |
| `CatalogText.Assemble` | create_vector_db.py:16 | the f-string's fields are evaluated left to right: the first of the name, description and effects lookups, the effects join, the ingredients lookup and the ingredients join that fails decides the error; a text starts with the displayed name |
| `CatalogText.Layout` | create_vector_db.py:16 | the text begins with the rendered name and always ends with "." |
| `CatalogText.ProductTextTyped` | create_vector_db.py:16 | for a product whose name and description are strs and whose effects and ingredients are lists of strs, the text is `name + ". " + description + " Effects: " + join(effects) + ". Ingredients: " + join(ingredients) + "."` |
| `CatalogText.ProductTextFieldOrder` | create_vector_db.py:16 | two products whose four keys look up the same values (or are missing alike) get the same text, or the same error, whatever their field order and other fields |
| `CatalogText.ParseLayout` | create_vector_db.py:16 | parsing the text gives back name, description, joined effects and joined ingredients whenever no earlier field contains the delimiter that ends it |
| `CatalogText.ParseCanonicalLists` | create_vector_db.py:16 | under the same conditions, the effects and ingredients lists are recovered item by item in order (empty lists included) when no item is empty or contains ", " |
| `VectorDb.ProductTexts` | create_vector_db.py:15-18 | succeeds if and only if every product can be rendered; then it gives exactly one text per product, with text `i` built from product `i` alone, and otherwise the first failing product's error |
| `VectorDb.Build` | create_vector_db.py:15-32 | succeeds if and only if every product can be rendered; the saved metadata is the catalog unchanged and as long as the vector list, and vector `i` is the embedding of metadata `i`'s text |

## Left out

- FAISS (`IndexFlatL2`, `add`, `search`, `read_index`/`write_index`) is a foreign library. `VectorDb.Build` stops at the list of vectors handed to the index. The search and the `products[idx]` lookup in `recommend.py` are not part of this model.
- The embedding model is the parameter `embed`. Each text is embedded on its own, so batching effects are not modelled. Vector dimensions are not checked. The empty catalog is covered by the `VectorDb.Build` line below.
- Python's `str()` of a non-str `name` or `description` inside the f-string (numbers, null, lists) is the parameter `render`. Only strs are formatted by the model itself.
- The Mistral generator, the prompt template with its `json.dumps` formatting, and the final `.strip()` of the generated text are not modelled: they are an external model and library formatting.
- `main.py` (HTTP transport, CORS, request model) and `test_llm.py` (an ad hoc T5 script) are not part of this model.
- JSON and pickle loading and saving, and the module-level model, index and knowledge-base loading, are file I/O. The hard-coded access token placeholder is not modelled either.
- Knowledge-base entries are typed records (`Knowledge.KBEntry`). An entry that is not a dict, which would make `.get` raise `AttributeError`, cannot be expressed. Non-str `properties` values and non-list `common_effects` values cannot be expressed either.
- `VectorDb.Build`: success on an empty catalog is not established for the program. `create_vector_db.py:24` reads `shape[1]` of the embedding of an empty list, and whether that raises depends on the embedding library, which is not part of this model.
- The catalog is assumed to be a JSON list of products (`VectorDb.Build` takes a `seq<Json>`). If `data/products.json` held an object instead, `for p in products` would iterate its keys, and `p['name']` would raise `TypeError` on the first str key. That shape is not modelled.
- The knowledge base is assumed to be a JSON object keyed by ingredient name. If `data/knowledge.json` held a list of records instead (the shape `test_llm.py:23-34` uses for its sample data), `ing in ingredient_knowledge` would test list membership and never hold for a str, so the result would always be empty. That shape is not modelled.

=== FILE: enrichment.dfy ===
/** The enrichment step of `generate_llm_recommendation`: every retrieved
    product (a JSON object) is copied and given an `enriched_ingredients` field
    holding `get_ingredient_info` of its own `ingredients`. */
module Enrichment {
  import opened Options
  import opened JsonValues
  import opened Python
  import opened Knowledge

  const EnrichedKey := "enriched_ingredients"
  const IngredientsKey := "ingredients"

  /** The dict `{"name": …, "properties": …, "common_effects": […]}`. */
  function IngredientJson(e: EnrichedIngredient): (r: Json)
    ensures r.JObj? && Keys(r.fields) == ["name", "properties", "common_effects"]
    ensures Get(r.fields, "name") == Some(JStr(e.name))
    ensures Get(r.fields, "properties") == Some(JStr(e.properties))
    ensures Get(r.fields, "common_effects") == Some(StrArray(e.commonEffects))
  {
    JObj([
      Field("name", JStr(e.name)),
      Field("properties", JStr(e.properties)),
      Field("common_effects", StrArray(e.commonEffects))
    ])
  }

  /** The list of record dicts, one per enriched ingredient, in order. */
  function InfoJson(info: seq<EnrichedIngredient>): (r: Json)
    ensures r.JArr? && |r.items| == |info|
    ensures forall i :: 0 <= i < |info| ==> r.items[i].JObj? && Get(r.items[i].fields, "name") == Some(JStr(info[i].name))
    ensures forall i :: 0 <= i < |info| ==> r.items[i].JObj? && Get(r.items[i].fields, "properties") == Some(JStr(info[i].properties))
    ensures forall i :: 0 <= i < |info| ==> r.items[i].JObj? && Get(r.items[i].fields, "common_effects") == Some(StrArray(info[i].commonEffects))
  {
    JArr(seq(|info|, i requires 0 <= i < |info| => IngredientJson(info[i])))
  }

  /** The str items among `items`. Other hashable values (null, bools,
      numbers) are never equal to a str key, so they are never kept. */
  function StrItems(items: seq<Json>): (ss: seq<string>)
    ensures |ss| <= |items|
    ensures forall i :: 0 <= i < |items| && items[i].JStr? ==> items[i].s in ss
    ensures forall s :: s in ss ==> JStr(s) in items
  {
    if |items| == 0 then []
    else (if items[0].JStr? then [items[0].s] else []) + StrItems(items[1..])
  }

  /** `get_ingredient_info(v)` for whatever JSON value `v` a product holds
      under `ingredients`: iterating it may raise, and so may looking up an
      unhashable item. */
  function IngredientInfoOf(kb: KnowledgeBase, v: Json): (r: Result<seq<EnrichedIngredient>>)
    ensures r.Ok? <==> Iterate(v).Ok? && forall i :: 0 <= i < |Iterate(v).value| ==> Hashable(Iterate(v).value[i])
    ensures Iterate(v).Err? ==> r == Err(TypeError(NotIterable))
    ensures Iterate(v).Ok? && r.Err? ==> r == Err(TypeError(Unhashable))
    ensures r.Ok? ==> r.value == IngredientInfo(kb, StrItems(Iterate(v).value))
  {
    var items :- Iterate(v);
    if forall i :: 0 <= i < |items| ==> Hashable(items[i]) then Ok(IngredientInfo(kb, StrItems(items)))
    else Err(TypeError(Unhashable))
  }

  /** `{**product, "enriched_ingredients": get_ingredient_info(product["ingredients"])}`. */
  function EnrichProduct(kb: KnowledgeBase, product: Json): (r: Result<Json>)
    ensures !product.JObj? ==> r == Err(TypeError(NotAMapping))
    ensures product.JObj? && IngredientsKey !in Keys(product.fields) ==> r == Err(KeyError(IngredientsKey))
    ensures r.Ok? <==> product.JObj? && IngredientsKey in Keys(product.fields)
                        && IngredientInfoOf(kb, Get(product.fields, IngredientsKey).value).Ok?
    ensures (product.JObj? && IngredientsKey in Keys(product.fields)
             && IngredientInfoOf(kb, Get(product.fields, IngredientsKey).value).Err?)
            ==> r == Err(IngredientInfoOf(kb, Get(product.fields, IngredientsKey).value).error)
    ensures r.Ok? ==> r.value.JObj?
    ensures r.Ok? ==> Get(r.value.fields, EnrichedKey)
                        == Some(InfoJson(IngredientInfoOf(kb, Get(product.fields, IngredientsKey).value).value))
    ensures r.Ok? ==> forall k :: k != EnrichedKey ==> Get(r.value.fields, k) == Get(product.fields, k)
    ensures r.Ok? && EnrichedKey in Keys(product.fields) ==> Keys(r.value.fields) == Keys(product.fields)
    ensures r.Ok? && EnrichedKey !in Keys(product.fields) ==> Keys(r.value.fields) == Keys(product.fields) + [EnrichedKey]
    ensures r.Ok? && UniqueKeys(product.fields) ==> UniqueKeys(r.value.fields)
  {
    if !product.JObj? then Err(TypeError(NotAMapping))
    else
      var ings :- Subscript(product, IngredientsKey);
      var info :- IngredientInfoOf(kb, ings);
      Ok(JObj(Update(product.fields, EnrichedKey, InfoJson(info))))
  }

  /** The `enriched_products` list comprehension. It succeeds exactly when
      every product can be enriched; it then yields one enriched product per
      retrieved product, in the same order, and otherwise raises what the first
      failing product raises. */
  function EnrichProducts(kb: KnowledgeBase, products: seq<Json>): (r: Result<seq<Json>>)
    ensures r.Ok? <==> forall i :: 0 <= i < |products| ==> EnrichProduct(kb, products[i]).Ok?
    ensures r.Ok? ==> |r.value| == |products|
    ensures r.Ok? ==> forall i :: 0 <= i < |products| ==> r.value[i] == EnrichProduct(kb, products[i]).value
    ensures r.Err? ==> exists i :: 0 <= i < |products| && EnrichProduct(kb, products[i]) == Err(r.error)
                                   && forall j :: 0 <= j < i ==> EnrichProduct(kb, products[j]).Ok?
  {
    var f := p => EnrichProduct(kb, p);
    assert forall i :: 0 <= i < |products| ==> f(products[i]) == EnrichProduct(kb, products[i]);
    MapAll(f, products)
  }

  /** Only strs survive the filter, in order: a list of strs is kept whole. */
  lemma {:induction false} StrItemsOfStrs(ss: seq<string>)
    ensures StrItems(StrArray(ss).items) == ss
    decreases |ss|
  {
    if |ss| > 0 {
      assert StrArray(ss).items[1..] == StrArray(ss[1..]).items;
      StrItemsOfStrs(ss[1..]);
      assert ss == [ss[0]] + ss[1..];
    }
  }

  /** The filter keeps order: the strs of `a + b` are those of `a`, then
      those of `b`. With the single-item case this pins `StrItems` down as the
      in-order filter of the str items. */
  lemma {:induction false} StrItemsAppend(a: seq<Json>, b: seq<Json>)
    ensures StrItems(a + b) == StrItems(a) + StrItems(b)
    decreases |a|
  {
    if |a| == 0 {
      assert a + b == b;
    } else {
      assert (a + b)[1..] == a[1..] + b;
      StrItemsAppend(a[1..], b);
    }
  }

  /** One item is kept exactly when it is a str. */
  lemma StrItemsSingle(x: Json)
    ensures StrItems([x]) == (if x.JStr? then [x.s] else [])
  {
  }

  /** For a product whose `ingredients` is a list of strs, the attached list is
      `get_ingredient_info` of exactly that list, and every other field is as it was. */
  lemma EnrichProductOfStrList(kb: KnowledgeBase, fields: seq<Field>, ings: seq<string>)
    requires Get(fields, IngredientsKey) == Some(StrArray(ings))
    ensures EnrichProduct(kb, JObj(fields)).Ok?
    ensures Get(EnrichProduct(kb, JObj(fields)).value.fields, EnrichedKey) == Some(InfoJson(IngredientInfo(kb, ings)))
    ensures forall k :: k != EnrichedKey ==> Get(EnrichProduct(kb, JObj(fields)).value.fields, k) == Get(fields, k)
  {
    StrItemsOfStrs(ings);
  }

  /** Enriching an already enriched product changes nothing: the step only
      adds or overwrites `enriched_ingredients`, and reads nothing it writes. */
  lemma EnrichProductIdempotent(kb: KnowledgeBase, fields: seq<Field>, ings: Json)
    requires Get(fields, IngredientsKey) == Some(ings)
    requires IngredientInfoOf(kb, ings).Ok?
    ensures EnrichProduct(kb, JObj(fields)).Ok?
    ensures EnrichProduct(kb, EnrichProduct(kb, JObj(fields)).value) == EnrichProduct(kb, JObj(fields))
  {
    var once := EnrichProduct(kb, JObj(fields)).value;
    assert Get(once.fields, IngredientsKey) == Some(ings);
    UpdateSame(once.fields, EnrichedKey, InfoJson(IngredientInfoOf(kb, ings).value));
  }

}

=== FILE: json.dfy ===
/** JSON values as `json.load` returns them. An object is a Python dict, which
    remembers insertion order, so it is kept as an ordered list of fields. A
    number is a Python `int` or `float` depending on how it is written, and the
    two print differently (`1` against `1.0`), so they stay apart. */
module JsonValues {
  import opened Options

  datatype Json =
    | JNull
    | JBool(b: bool)
    | JInt(i: int)
    | JFloat(x: real)
    | JStr(s: string)
    | JArr(items: seq<Json>)
    | JObj(fields: seq<Field>)  // a Python dict only when its keys are unique (`UniqueKeys`)

  datatype Field = Field(key: string, value: Json)

  /** A JSON list of strs. */
  function StrArray(ss: seq<string>): Json
  {
    JArr(seq(|ss|, i requires 0 <= i < |ss| => JStr(ss[i])))
  }

  /** The keys of a dict, in insertion order. */
  function Keys(fields: seq<Field>): (ks: seq<string>)
    ensures |ks| == |fields|
    ensures forall i :: 0 <= i < |fields| ==> ks[i] == fields[i].key
  {
    seq(|fields|, i requires 0 <= i < |fields| => fields[i].key)
  }

  /** A dict holds each key once. */
  predicate UniqueKeys(fields: seq<Field>)
  {
    forall i, j :: 0 <= i < j < |fields| ==> fields[i].key != fields[j].key
  }

  /** Where key `k` sits in the dict, if it is there. */
  function IndexOf(fields: seq<Field>, k: string): (r: Option<nat>)
    ensures r.None? <==> k !in Keys(fields)
    ensures r.Some? ==> r.value < |fields| && fields[r.value].key == k
    ensures r.Some? ==> forall j :: 0 <= j < r.value ==> fields[j].key != k
  {
    if |fields| == 0 then None
    else if fields[0].key == k then
      assert Keys(fields)[0] == k;
      Some(0)
    else
      assert Keys(fields) == [fields[0].key] + Keys(fields[1..]);
      match IndexOf(fields[1..], k)
      case None => None
      case Some(i) => Some(i + 1)
  }

  /** `d.get(k)`: the value stored under `k`, if any. */
  function Get(fields: seq<Field>, k: string): (r: Option<Json>)
    ensures r.Some? <==> k in Keys(fields)
    ensures UniqueKeys(fields) ==>
              forall i :: 0 <= i < |fields| && fields[i].key == k ==> r == Some(fields[i].value)
  {
    match IndexOf(fields, k)
    case None =>
      assert forall i :: 0 <= i < |fields| ==> Keys(fields)[i] != k;
      None
    case Some(i) => Some(fields[i].value)
  }

  /** Two dicts with the same keys in the same order find each key at the same place. */
  lemma IndexOfByKeys(a: seq<Field>, b: seq<Field>, k: string)
    requires Keys(a) == Keys(b)
    ensures IndexOf(a, k) == IndexOf(b, k)
  {
    var ra, rb := IndexOf(a, k), IndexOf(b, k);
    assert ra.None? <==> rb.None?;
    if ra.Some? {
      var i, j := ra.value, rb.value;
      assert b[i].key == Keys(b)[i] == Keys(a)[i] == k;
      assert a[j].key == Keys(a)[j] == Keys(b)[j] == k;
      assert !(i < j) && !(j < i);
    }
  }

  /** `{**d, k: v}`: a copy of `d` where `k` now maps to `v`. An existing key
      keeps its place; a new key goes last. */
  function Update(fields: seq<Field>, k: string, v: Json): (r: seq<Field>)
    ensures k in Keys(fields) ==> Keys(r) == Keys(fields)
    ensures k !in Keys(fields) ==> Keys(r) == Keys(fields) + [k]
    ensures Get(r, k) == Some(v)
    ensures forall k' :: k' != k ==> Get(r, k') == Get(fields, k')
    ensures UniqueKeys(fields) ==> UniqueKeys(r)
  {
    match IndexOf(fields, k)
    case None =>
      AppendKey(fields, k, v);
      fields + [Field(k, v)]
    case Some(i) =>
      ReplaceKey(fields, i, k, v);
      fields[i := Field(k, v)]
  }

  /** Appending a field for a new key. */
  lemma AppendKey(fields: seq<Field>, k: string, v: Json)
    requires k !in Keys(fields)
    ensures Keys(fields + [Field(k, v)]) == Keys(fields) + [k]
    ensures Get(fields + [Field(k, v)], k) == Some(v)
    ensures forall k' :: k' != k ==> Get(fields + [Field(k, v)], k') == Get(fields, k')
    ensures UniqueKeys(fields) ==> UniqueKeys(fields + [Field(k, v)])
  {
    var r := fields + [Field(k, v)];
    assert Keys(r) == Keys(fields) + [k];
    assert forall j :: 0 <= j < |fields| ==> Keys(fields)[j] != k;
    assert IndexOf(r, k) == Some(|fields|);
    forall k' | k' != k
      ensures Get(r, k') == Get(fields, k')
    {
      AppendOtherKey(fields, k, v, k');
    }
  }

  lemma AppendOtherKey(fields: seq<Field>, k: string, v: Json, k': string)
    requires k' != k
    ensures Get(fields + [Field(k, v)], k') == Get(fields, k')
  {
    var r := fields + [Field(k, v)];
    var ir, ifl := IndexOf(r, k'), IndexOf(fields, k');
    if ir.Some? {
      assert ir.value < |fields|;
      assert Keys(fields)[ir.value] == k';
    }
    if ifl.Some? {
      assert r[ifl.value] == fields[ifl.value];
    }
  }

  /** Overwriting the field of a key already present, in place. */
  lemma ReplaceKey(fields: seq<Field>, i: nat, k: string, v: Json)
    requires IndexOf(fields, k) == Some(i)
    ensures Keys(fields[i := Field(k, v)]) == Keys(fields)
    ensures Get(fields[i := Field(k, v)], k) == Some(v)
    ensures forall k' :: k' != k ==> Get(fields[i := Field(k, v)], k') == Get(fields, k')
    ensures UniqueKeys(fields) ==> UniqueKeys(fields[i := Field(k, v)])
  {
    var r := fields[i := Field(k, v)];
    assert Keys(r) == Keys(fields);
    IndexOfByKeys(r, fields, k);
    forall k' | k' != k
      ensures Get(r, k') == Get(fields, k')
    {
      IndexOfByKeys(r, fields, k');
    }
  }

  /** Storing the value a key already holds changes nothing. */
  lemma UpdateSame(fields: seq<Field>, k: string, v: Json)
    requires Get(fields, k) == Some(v)
    ensures Update(fields, k, v) == fields
  {
    var i := IndexOf(fields, k).value;
    assert fields[i] == Field(k, v);
  }

}

=== FILE: knowledge.dfy ===
/** `get_ingredient_info`: look each ingredient up in the ingredient knowledge
    base and describe the ones it knows. Lookup is exact (case-sensitive) key
    equality; ingredients the knowledge base does not know are dropped. */
module Knowledge {
  import opened Options

  /** One knowledge-base record; either field may be missing. */
  datatype KBEntry = KBEntry(properties: Option<string>, commonEffects: Option<seq<string>>)

  /** The knowledge base, keyed by ingredient name. */
  type KnowledgeBase = map<string, KBEntry>

  /** The `{name, properties, common_effects}` record built per ingredient. */
  datatype EnrichedIngredient = EnrichedIngredient(name: string, properties: string, commonEffects: seq<string>)

  const UnknownProperties := "Unknown"

  /** `ingredient_knowledge.get(ing, {})`: the entry, or an entry with no fields. */
  function EntryOf(kb: KnowledgeBase, ing: string): KBEntry
  {
    if ing in kb then kb[ing] else KBEntry(None, None)
  }

  /** The record for one ingredient. The name is kept as given; a missing
      `properties` reads "Unknown" and missing `common_effects` the empty list. */
  function Describe(kb: KnowledgeBase, ing: string): (e: EnrichedIngredient)
    ensures e.name == ing
    ensures e.properties == UnknownProperties <==>
              ing !in kb || kb[ing].properties.None? || kb[ing].properties.value == UnknownProperties
    ensures ing in kb && kb[ing].properties.Some? ==> e.properties == kb[ing].properties.value
    ensures ing in kb && kb[ing].commonEffects.Some? ==> e.commonEffects == kb[ing].commonEffects.value
    ensures ing !in kb || kb[ing].commonEffects.None? ==> e.commonEffects == []
  {
    var entry := EntryOf(kb, ing);
    EnrichedIngredient(
      ing,
      match entry.properties case Some(p) => p case None => UnknownProperties,
      match entry.commonEffects case Some(c) => c case None => [])
  }

  /** `get_ingredient_info(ingredients)`: the known ingredients, in input order
      and with repeats, each described from its knowledge-base entry. */
  function IngredientInfo(kb: KnowledgeBase, ings: seq<string>): (r: seq<EnrichedIngredient>)
    ensures |r| <= |ings|
    ensures forall j :: 0 <= j < |r| ==> r[j].name in kb && r[j] == Describe(kb, r[j].name)
  {
    if |ings| == 0 then []
    else if ings[0] in kb then [Describe(kb, ings[0])] + IngredientInfo(kb, ings[1..])
    else IngredientInfo(kb, ings[1..])
  }

  /** The names of the described ingredients. */
  function Names(r: seq<EnrichedIngredient>): (ns: seq<string>)
    ensures |ns| == |r|
    ensures forall j :: 0 <= j < |r| ==> ns[j] == r[j].name
  {
    seq(|r|, j requires 0 <= j < |r| => r[j].name)
  }

  /** Describing a concatenation describes each part in turn: the relative
      order of the input ingredients is kept. */
  lemma {:induction false} IngredientInfoAppend(kb: KnowledgeBase, a: seq<string>, b: seq<string>)
    ensures IngredientInfo(kb, a + b) == IngredientInfo(kb, a) + IngredientInfo(kb, b)
    decreases |a|
  {
    if |a| > 0 {
      assert (a + b)[1..] == a[1..] + b;
      IngredientInfoAppend(kb, a[1..], b);
    } else {
      assert a + b == b;
    }
  }

  /** Each name occurs in the output exactly as often as in the input when the
      knowledge base has it as a key, and never otherwise. */
  lemma {:induction false} IngredientInfoCounts(kb: KnowledgeBase, ings: seq<string>, s: string)
    ensures multiset(Names(IngredientInfo(kb, ings)))[s] == if s in kb then multiset(ings)[s] else 0
    decreases |ings|
  {
    if |ings| > 0 {
      IngredientInfoCounts(kb, ings[1..], s);
      assert ings == [ings[0]] + ings[1..];
      var tail := IngredientInfo(kb, ings[1..]);
      if ings[0] in kb {
        assert Names([Describe(kb, ings[0])] + tail) == [ings[0]] + Names(tail);
      }
    }
  }

  /** A name appears in the output if and only if it is one of the inputs and a
      key of the knowledge base. */
  lemma IngredientInfoMembership(kb: KnowledgeBase, ings: seq<string>, s: string)
    ensures s in Names(IngredientInfo(kb, ings)) <==> s in ings && s in kb
  {
    IngredientInfoCounts(kb, ings, s);
  }

  /** Nothing is dropped exactly when every input is a key of the knowledge base. */
  lemma {:induction false} IngredientInfoKeepsAll(kb: KnowledgeBase, ings: seq<string>)
    ensures |IngredientInfo(kb, ings)| == |ings| <==> forall i :: 0 <= i < |ings| ==> ings[i] in kb
    decreases |ings|
  {
    if |ings| > 0 {
      IngredientInfoKeepsAll(kb, ings[1..]);
      assert forall i :: 1 <= i < |ings| ==> ings[i] == ings[1..][i - 1];
    }
  }

  /** When every input is known, output entry `i` describes input `i`. */
  lemma {:induction false} IngredientInfoAllKnown(kb: KnowledgeBase, ings: seq<string>)
    requires forall i :: 0 <= i < |ings| ==> ings[i] in kb
    ensures |IngredientInfo(kb, ings)| == |ings|
    ensures forall i :: 0 <= i < |ings| ==> IngredientInfo(kb, ings)[i] == Describe(kb, ings[i])
    decreases |ings|
  {
    if |ings| > 0 {
      IngredientInfoAllKnown(kb, ings[1..]);
    }
  }

  /** A name that is not a key, even one differing only in letter case from a
      key, contributes nothing. */
  lemma IngredientInfoUnknownDropped(kb: KnowledgeBase, ings: seq<string>, s: string)
    requires s !in kb
    ensures IngredientInfo(kb, ings + [s]) == IngredientInfo(kb, ings)
  {
    IngredientInfoAppend(kb, ings, [s]);
  }

}

=== FILE: options.dfy ===
/** An answer that may be missing: a lookup or a search that finds nothing gives `None`. */
module Options {

  datatype Option<+T> = None | Some(value: T)

}

=== FILE: product_text.dfy ===
/** The text each catalog product is embedded as:
      name. description Effects: e1, e2. Ingredients: i1, i2.
    Fields come in this fixed order whatever order the product's own keys are in. */
module CatalogText {
  import opened Options
  import opened JsonValues
  import opened Python
  import opened Text

  const NameEnd := ". "
  const EffectsLabel := " Effects: "
  const IngredientsLabel := ". Ingredients: "
  const TextEnd := "."
  const ListSep := ", "

  /** The f-string's layout around its four rendered fields. The name comes
      first and the text always ends with ".". */
  function Layout(name: string, description: string, effects: string, ingredients: string): (t: string)
    ensures |t| > |name| && t[..|name|] == name
    ensures t[|t| - 1] == '.'
  {
    name + NameEnd + (description + EffectsLabel + (effects + IngredientsLabel + (ingredients + TextEnd)))
  }

  /** The text for a product whose fields are already strs and lists of strs. */
  function CanonicalText(name: string, description: string, effects: seq<string>, ingredients: seq<string>): string
  {
    Layout(name, description, Join(ListSep, effects), Join(ListSep, ingredients))
  }

  /** The f-string applied to one catalog entry `p`. Python runs the four
      subscripts and the two joins left to right; no subscript depends on a
      join, so taking the four subscripts first and then the fields in order
      reports the same first error. */
  function ProductText(p: Json, render: Json -> string): (r: Result<string>)
    ensures r.Ok? <==> TextReady(p)
    ensures !p.JObj? ==> r == Err(TypeError(NotSubscriptable))
    ensures p.JObj? && "name" !in Keys(p.fields) ==> r == Err(KeyError("name"))
    ensures (p.JObj? && "name" in Keys(p.fields) && "description" !in Keys(p.fields))
            ==> r == Err(KeyError("description"))
    ensures (p.JObj? && "name" in Keys(p.fields) && "description" in Keys(p.fields)
             && "effects" !in Keys(p.fields))
            ==> r == Err(KeyError("effects"))
    ensures (p.JObj? && "name" in Keys(p.fields) && "description" in Keys(p.fields)
             && "effects" in Keys(p.fields) && !Joinable(Get(p.fields, "effects").value))
            ==> r == Err(StrJoin(ListSep, Get(p.fields, "effects").value).error)
    ensures (p.JObj? && "name" in Keys(p.fields) && "description" in Keys(p.fields)
             && "effects" in Keys(p.fields) && Joinable(Get(p.fields, "effects").value)
             && "ingredients" !in Keys(p.fields))
            ==> r == Err(KeyError("ingredients"))
    ensures (p.JObj? && "name" in Keys(p.fields) && "description" in Keys(p.fields)
             && "effects" in Keys(p.fields) && Joinable(Get(p.fields, "effects").value)
             && "ingredients" in Keys(p.fields) && !Joinable(Get(p.fields, "ingredients").value))
            ==> r == Err(StrJoin(ListSep, Get(p.fields, "ingredients").value).error)
  {
    var effects := Subscript(p, "effects");
    var ingredients := Subscript(p, "ingredients");
    JoinsWhenJoinable(if effects.Ok? then effects.value else JNull);
    JoinsWhenJoinable(if ingredients.Ok? then ingredients.value else JNull);
    Assemble(Subscript(p, "name"), Subscript(p, "description"), effects, ingredients, render)
  }

  /** The f-string over the results of its four subscripts, in field order. */
  function Assemble(name: Result<Json>, description: Result<Json>, effects: Result<Json>,
                    ingredients: Result<Json>, render: Json -> string): (r: Result<string>)
    ensures name.Err? ==> r == Err(name.error)
    ensures name.Ok? && description.Err? ==> r == Err(description.error)
    ensures name.Ok? && description.Ok? && effects.Err? ==> r == Err(effects.error)
    ensures (name.Ok? && description.Ok? && effects.Ok? && StrJoin(ListSep, effects.value).Err?)
            ==> r == Err(StrJoin(ListSep, effects.value).error)
    ensures (name.Ok? && description.Ok? && effects.Ok? && StrJoin(ListSep, effects.value).Ok?
             && ingredients.Err?)
            ==> r == Err(ingredients.error)
    ensures (name.Ok? && description.Ok? && effects.Ok? && StrJoin(ListSep, effects.value).Ok?
             && ingredients.Ok? && StrJoin(ListSep, ingredients.value).Err?)
            ==> r == Err(StrJoin(ListSep, ingredients.value).error)
    ensures r.Ok? ==> name.Ok? && |r.value| > |Display(name.value, render)|
                      && r.value[..|Display(name.value, render)|] == Display(name.value, render)
  {
    var n :- name;
    var d :- description;
    var e :- effects;
    var effectsText :- StrJoin(ListSep, e);
    var i :- ingredients;
    var ingredientsText :- StrJoin(ListSep, i);
    Ok(Layout(Display(n, render), Display(d, render), effectsText, ingredientsText))
  }

  /** `v` can be joined: an iterable whose items are all strs. */
  predicate Joinable(v: Json)
  {
    match v
    case JArr(items) => forall i :: 0 <= i < |items| ==> items[i].JStr?
    case JStr(_) => true
    case JObj(_) => true
    case _ => false
  }

  /** Joining succeeds exactly on the values `Joinable` admits. */
  lemma JoinsWhenJoinable(v: Json)
    ensures StrJoin(ListSep, v).Ok? <==> Joinable(v)
  {
  }

  /** What the f-string needs of a catalog entry: a dict with all four keys,
      whose `effects` and `ingredients` can be joined. */
  predicate TextReady(p: Json)
  {
    && p.JObj?
    && "name" in Keys(p.fields)
    && "description" in Keys(p.fields)
    && "effects" in Keys(p.fields) && Joinable(Get(p.fields, "effects").value)
    && "ingredients" in Keys(p.fields) && Joinable(Get(p.fields, "ingredients").value)
  }

  /** For a product whose name and description are strs and whose effects
      and ingredients are lists of strs, the text is the canonical text of those
      four fields, with effects and ingredients in their list order. */
  lemma ProductTextTyped(fields: seq<Field>, name: string, description: string,
                         effects: seq<string>, ingredients: seq<string>, render: Json -> string)
    requires Get(fields, "name") == Some(JStr(name))
    requires Get(fields, "description") == Some(JStr(description))
    requires Get(fields, "effects") == Some(StrArray(effects))
    requires Get(fields, "ingredients") == Some(StrArray(ingredients))
    ensures ProductText(JObj(fields), render) == Ok(CanonicalText(name, description, effects, ingredients))
  {
    StrJoinStrArray(ListSep, effects);
    StrJoinStrArray(ListSep, ingredients);
  }

  /** The text depends on the four keys' values only, not on where they sit
      among the product's fields nor on any other field. */
  lemma ProductTextFieldOrder(pf: seq<Field>, qf: seq<Field>, render: Json -> string)
    requires Get(pf, "name") == Get(qf, "name")
    requires Get(pf, "description") == Get(qf, "description")
    requires Get(pf, "effects") == Get(qf, "effects")
    requires Get(pf, "ingredients") == Get(qf, "ingredients")
    ensures ProductText(JObj(pf), render) == ProductText(JObj(qf), render)
  {
    assert Subscript(JObj(pf), "name") == Subscript(JObj(qf), "name");
    assert Subscript(JObj(pf), "description") == Subscript(JObj(qf), "description");
    assert Subscript(JObj(pf), "effects") == Subscript(JObj(qf), "effects");
    assert Subscript(JObj(pf), "ingredients") == Subscript(JObj(qf), "ingredients");
  }

  /** The four field texts found in a product text. */
  datatype Parts = Parts(name: string, description: string, effects: string, ingredients: string)

  /** Reads a product text back, cutting at the first ". ", then the first
      " Effects: ", then the first ". Ingredients: ", and dropping the final ".". */
  function ParseText(t: string): Option<Parts>
  {
    match Find(t, NameEnd)
    case None => None
    case Some(i) =>
      var afterName := t[i + |NameEnd|..];
      match Find(afterName, EffectsLabel)
      case None => None
      case Some(j) =>
        var afterDescription := afterName[j + |EffectsLabel|..];
        match Find(afterDescription, IngredientsLabel)
        case None => None
        case Some(k) =>
          var tail := afterDescription[k + |IngredientsLabel|..];
          if |tail| > 0 && tail[|tail| - 1] == '.' then
            Some(Parts(t[..i], afterName[..j], afterDescription[..k], tail[..|tail| - 1]))
          else None
  }

  /** The layout gives back its fields whenever no field before the last one
      contains the delimiter that ends it. */
  lemma ParseLayout(name: string, description: string, effects: string, ingredients: string)
    requires FreeOf(name, NameEnd)
    requires FreeOf(description, EffectsLabel)
    requires FreeOf(effects, IngredientsLabel)
    ensures ParseText(Layout(name, description, effects, ingredients))
              == Some(Parts(name, description, effects, ingredients))
  {
    var rest3 := ingredients + TextEnd;
    var rest2 := effects + IngredientsLabel + rest3;
    var rest1 := description + EffectsLabel + rest2;
    CutAtFree(name, NameEnd, rest1);
    CutAtFree(description, EffectsLabel, rest2);
    CutAtFree(effects, IngredientsLabel, rest3);
    assert rest3[..|rest3| - 1] == ingredients;
  }

  /** Effects and ingredients are recovered item by item, in order, when no
      item is empty or contains ", ". */
  lemma ParseCanonicalLists(name: string, description: string, effects: seq<string>, ingredients: seq<string>)
    requires FreeOf(name, NameEnd)
    requires FreeOf(description, EffectsLabel)
    requires FreeOf(Join(ListSep, effects), IngredientsLabel)
    requires forall i :: 0 <= i < |effects| ==> effects[i] != "" && FreeOf(effects[i], ListSep)
    requires forall i :: 0 <= i < |ingredients| ==> ingredients[i] != "" && FreeOf(ingredients[i], ListSep)
    ensures ParseText(CanonicalText(name, description, effects, ingredients)).Some?
    ensures ParseText(CanonicalText(name, description, effects, ingredients)).value.name == name
    ensures ParseText(CanonicalText(name, description, effects, ingredients)).value.description == description
    ensures SplitList(ParseText(CanonicalText(name, description, effects, ingredients)).value.effects, ListSep) == effects
    ensures SplitList(ParseText(CanonicalText(name, description, effects, ingredients)).value.ingredients, ListSep) == ingredients
  {
    ParseLayout(name, description, Join(ListSep, effects), Join(ListSep, ingredients));
    SplitListJoin(effects, ListSep);
    SplitListJoin(ingredients, ListSep);
  }

}

=== FILE: python.dfy ===
/** The few Python operations the recommender applies to JSON values, with the
    exceptions they raise modelled as `Err` results. */
module Python {
  import opened Options
  import opened JsonValues
  import Text

  /** Why a `TypeError` was raised. */
  datatype TypeProblem =
    | NotSubscriptable  // `v[key]` on a value that is not a dict
    | NotIterable       // `for x in v` on null, a bool or a number
    | NotAString        // `sep.join(v)` meeting an item that is not a str
    | Unhashable        // `x in d` with a list or a dict as `x`
    | NotAMapping       // `{**v}` on a value that is not a dict

  datatype PyError =
    | KeyError(key: string)
    | TypeError(problem: TypeProblem)

  datatype Result<+T> = Ok(value: T) | Err(error: PyError) {
    predicate IsFailure() {
      Err?
    }

    function PropagateFailure<U>(): Result<U>
      requires Err?
    {
      Err(error)
    }

    function Extract(): T
      requires Ok?
    {
      value
    }
  }

  /** `v[key]` with a str key. */
  function Subscript(v: Json, key: string): (r: Result<Json>)
    ensures r.Ok? <==> v.JObj? && key in Keys(v.fields)
    ensures r.Ok? ==> Get(v.fields, key) == Some(r.value)
    ensures v.JObj? && key !in Keys(v.fields) ==> r == Err(KeyError(key))
    ensures !v.JObj? ==> r == Err(TypeError(NotSubscriptable))
  {
    match v
    case JObj(fields) =>
      (match Get(fields, key)
       case Some(x) => Ok(x)
       case None => Err(KeyError(key)))
    case _ => Err(TypeError(NotSubscriptable))
  }

  /** The items `for x in v` visits: a list's items, a str's one-character
      strs, a dict's keys. */
  function Iterate(v: Json): (r: Result<seq<Json>>)
    ensures r.Ok? <==> v.JArr? || v.JStr? || v.JObj?
    ensures v.JArr? ==> r == Ok(v.items)
    ensures v.JStr? ==> r.Ok? && |r.value| == |v.s|
    ensures v.JObj? ==> r.Ok? && |r.value| == |v.fields|
    ensures v.JStr? ==> forall i :: 0 <= i < |v.s| ==> r.value[i] == JStr([v.s[i]])
    ensures v.JObj? ==> forall i :: 0 <= i < |v.fields| ==> r.value[i] == JStr(v.fields[i].key)
  {
    match v
    case JArr(items) => Ok(items)
    case JStr(s) => Ok(seq(|s|, i requires 0 <= i < |s| => JStr([s[i]])))
    case JObj(fields) => Ok(seq(|fields|, i requires 0 <= i < |fields| => JStr(fields[i].key)))
    case _ => Err(TypeError(NotIterable))
  }

  /** `x in d` raises for lists and dicts; every other JSON value can be looked up. */
  predicate Hashable(v: Json)
  {
    !v.JArr? && !v.JObj?
  }

  /** The texts of a sequence of JSON strs. */
  function Strs(items: seq<Json>): (ss: seq<string>)
    requires forall i :: 0 <= i < |items| ==> items[i].JStr?
    ensures |ss| == |items|
    ensures forall i :: 0 <= i < |items| ==> items[i] == JStr(ss[i])
  {
    seq(|items|, i requires 0 <= i < |items| => items[i].s)
  }

  /** `sep.join(v)`: every item visited must be a str. */
  function StrJoin(sep: string, v: Json): (r: Result<string>)
    ensures r.Ok? <==> Iterate(v).Ok? && forall i :: 0 <= i < |Iterate(v).value| ==> Iterate(v).value[i].JStr?
    ensures Iterate(v).Err? ==> r == Err(Iterate(v).error)
    ensures Iterate(v).Ok? && r.Err? ==> r == Err(TypeError(NotAString))
    ensures r.Ok? ==> r.value == Text.Join(sep, Strs(Iterate(v).value))
  {
    var items :- Iterate(v);
    if forall i :: 0 <= i < |items| ==> items[i].JStr? then Ok(Text.Join(sep, Strs(items)))
    else Err(TypeError(NotAString))
  }

  /** Joining a list of strs joins exactly those strs, in list order. */
  lemma StrJoinStrArray(sep: string, ss: seq<string>)
    ensures StrJoin(sep, StrArray(ss)) == Ok(Text.Join(sep, ss))
  {
    assert Strs(StrArray(ss).items) == ss;
  }

  /** The text a replacement field `{v}` of an f-string produces: a str as it
      is, anything else as `render` (Python's `str()`) formats it. */
  function Display(v: Json, render: Json -> string): (r: string)
    ensures v.JStr? ==> r == v.s
  {
    if v.JStr? then v.s else render(v)
  }

  /** A list comprehension `[f(x) for x in xs]` whose step may raise: the first
      exception aborts the whole list. */
  function MapAll<A, B>(f: A -> Result<B>, xs: seq<A>): (r: Result<seq<B>>)
    ensures r.Ok? <==> forall i :: 0 <= i < |xs| ==> f(xs[i]).Ok?
    ensures r.Ok? ==> |r.value| == |xs| && forall i :: 0 <= i < |xs| ==> r.value[i] == f(xs[i]).value
    ensures r.Err? ==> exists i :: 0 <= i < |xs| && f(xs[i]) == Err(r.error)
                                   && forall j :: 0 <= j < i ==> f(xs[j]).Ok?
  {
    if |xs| == 0 then Ok([])
    else
      var y :- f(xs[0]);
      var ys :- MapAll(f, xs[1..]);
      assert forall i :: 1 <= i < |xs| ==> xs[i] == xs[1..][i - 1];
      Ok([y] + ys)
  }

}

=== FILE: text.dfy ===
/** String helpers shared by the serialiser: Python's `sep.join(strings)`,
    substring search, and `str.split(sep)` as the inverse of joining. */
module Text {
  import opened Options

  /** `sep.join(xs)`: the items in order with `sep` between neighbours. */
  function Join(sep: string, xs: seq<string>): string
  {
    if |xs| == 0 then ""
    else if |xs| == 1 then xs[0]
    else xs[0] + sep + Join(sep, xs[1..])
  }

  /** A joined text is "" for no items. Otherwise it starts with the first
      item, and then the separator follows when there is a second item. It
      ends with the last item. */
  lemma {:induction false} JoinEnds(sep: string, xs: seq<string>)
    ensures |xs| == 0 ==> Join(sep, xs) == ""
    ensures |xs| > 0 ==> |Join(sep, xs)| >= |xs[0]| && Join(sep, xs)[..|xs[0]|] == xs[0]
    ensures |xs| > 1 ==> |Join(sep, xs)| >= |xs[0]| + |sep| && Join(sep, xs)[|xs[0]|..|xs[0]| + |sep|] == sep
    ensures |xs| > 0 ==> |Join(sep, xs)| >= |xs[|xs| - 1]|
                         && Join(sep, xs)[|Join(sep, xs)| - |xs[|xs| - 1]|..] == xs[|xs| - 1]
    decreases |xs|
  {
    if |xs| > 1 {
      JoinEnds(sep, xs[1..]);
      var rest := Join(sep, xs[1..]);
      assert Join(sep, xs) == xs[0] + sep + rest;
      assert xs[1..][|xs[1..]| - 1] == xs[|xs| - 1];
    }
  }

  /** `pat` occurs in `t` starting at index `i`. */
  predicate OccursAt(pat: string, t: string, i: nat)
  {
    i + |pat| <= |t| && t[i..i + |pat|] == pat
  }

  /** The first occurrence of `pat` in `t` at or after `from` (Python's `t.find(pat, from)`). */
  function FindFrom(t: string, pat: string, from: nat): (r: Option<nat>)
    requires |pat| > 0
    ensures r.Some? ==> from <= r.value && OccursAt(pat, t, r.value)
    ensures r.Some? ==> forall k :: from <= k < r.value ==> !OccursAt(pat, t, k)
    ensures r.None? ==> forall k :: from <= k ==> !OccursAt(pat, t, k)
    decreases |t| - from
  {
    if from + |pat| > |t| then None
    else if OccursAt(pat, t, from) then Some(from)
    else FindFrom(t, pat, from + 1)
  }

  function Find(t: string, pat: string): Option<nat>
    requires |pat| > 0
  {
    FindFrom(t, pat, 0)
  }

  /** `t.split(sep)`: the pieces between successive left-to-right occurrences of `sep`. */
  function Split(t: string, sep: string): (r: seq<string>)
    requires |sep| > 0
    ensures |r| > 0
    decreases |t|
  {
    match Find(t, sep)
    case None => [t]
    case Some(i) => [t[..i]] + Split(t[i + |sep|..], sep)
  }

  /** The joined text of an empty list is "", so the list of names encoded in
      a joined text is read back as empty exactly when the text is empty. */
  function SplitList(t: string, sep: string): seq<string>
    requires |sep| > 0
  {
    if t == "" then [] else Split(t, sep)
  }

  /** `s` followed by `pat` has its first occurrence of `pat` where `s` ends:
      `pat` does not occur inside `s`, nor straddle the boundary. */
  predicate FreeOf(s: string, pat: string)
  {
    forall i :: 0 <= i < |s| ==> !OccursAt(pat, s + pat, i)
  }

  /** An occurrence inside `t[..n]` is an occurrence inside `t`, and back. */
  lemma OccursInPrefix(pat: string, t: string, n: nat, i: nat)
    requires n <= |t|
    requires i + |pat| <= n
    ensures OccursAt(pat, t, i) <==> OccursAt(pat, t[..n], i)
  {
    assert t[..n][i..i + |pat|] == t[i..i + |pat|];
  }

  /** Searching text that starts with `s + pat` finds `pat` right after `s`. */
  lemma {:induction false} FindAfterFree(s: string, pat: string, rest: string)
    requires |pat| > 0
    requires FreeOf(s, pat)
    ensures Find(s + pat + rest, pat) == Some(|s|)
  {
    var t := s + pat + rest;
    assert t[..|s| + |pat|] == s + pat;
    assert t[|s|..|s| + |pat|] == pat;
    forall k | 0 <= k < |s|
      ensures !OccursAt(pat, t, k)
    {
      OccursInPrefix(pat, t, |s| + |pat|, k);
    }
    assert OccursAt(pat, t, |s|);
    var r := FindFrom(t, pat, 0);
    if r.Some? {
      assert r.value >= |s|;
    }
  }

  /** Cutting `s + pat + rest` at the first `pat` gives back `s` and `rest`. */
  lemma CutAtFree(s: string, pat: string, rest: string)
    requires |pat| > 0
    requires FreeOf(s, pat)
    ensures Find(s + pat + rest, pat) == Some(|s|)
    ensures (s + pat + rest)[..|s|] == s
    ensures (s + pat + rest)[|s| + |pat|..] == rest
  {
    FindAfterFree(s, pat, rest);
  }

  /** A text that is free of `pat` contains no occurrence of it. */
  lemma {:induction false} FindInFree(s: string, pat: string)
    requires |pat| > 0
    requires FreeOf(s, pat)
    ensures Find(s, pat) == None
  {
    var t := s + pat;
    assert t[..|s|] == s;
    forall k | 0 <= k && k + |pat| <= |s|
      ensures !OccursAt(pat, s, k)
    {
      OccursInPrefix(pat, t, |s|, k);
    }
  }

  /** Splitting a joined list gives the list back when no item contains the separator. */
  lemma {:induction false} SplitJoin(xs: seq<string>, sep: string)
    requires |sep| > 0
    requires |xs| > 0
    requires forall i :: 0 <= i < |xs| ==> FreeOf(xs[i], sep)
    ensures Split(Join(sep, xs), sep) == xs
    decreases |xs|
  {
    if |xs| == 1 {
      FindInFree(xs[0], sep);
    } else {
      var rest := Join(sep, xs[1..]);
      FindAfterFree(xs[0], sep, rest);
      var t := xs[0] + sep + rest;
      assert t[..|xs[0]|] == xs[0];
      assert t[|xs[0]| + |sep|..] == rest;
      SplitJoin(xs[1..], sep);
      assert xs == [xs[0]] + xs[1..];
    }
  }

  /** `SplitList` inverts `Join` for lists of non-empty items free of the separator,
      the empty list included. */
  lemma SplitListJoin(xs: seq<string>, sep: string)
    requires |sep| > 0
    requires forall i :: 0 <= i < |xs| ==> xs[i] != "" && FreeOf(xs[i], sep)
    ensures SplitList(Join(sep, xs), sep) == xs
  {
    if |xs| > 0 {
      JoinNonEmpty(xs, sep);
      SplitJoin(xs, sep);
    }
  }

  /** Joining a list whose first item is non-empty yields a non-empty text. */
  lemma JoinNonEmpty(xs: seq<string>, sep: string)
    requires |xs| > 0 && xs[0] != ""
    ensures Join(sep, xs) != ""
  {
    if |xs| > 1 {
      assert |Join(sep, xs)| >= |xs[0]|;
    }
  }

}

=== FILE: vector_db.dfy ===
/** The index build: one text per catalog product, one embedding per text,
    and the catalog itself kept as the metadata, position for position. */
module VectorDb {
  import opened JsonValues
  import opened Python
  import opened CatalogText

  /** An embedding vector. */
  type Vector = seq<real>

  /** The two persisted artifacts: the vectors added to the index, in order,
      and the metadata list. */
  datatype Artifacts = Artifacts(vectors: seq<Vector>, metadata: seq<Json>)

  /** The `product_texts` list comprehension: one text per product, text `i`
      made from product `i` alone; the first product that cannot be rendered
      aborts the list. */
  function ProductTexts(catalog: seq<Json>, render: Json -> string): (r: Result<seq<string>>)
    ensures r.Ok? <==> forall i :: 0 <= i < |catalog| ==> TextReady(catalog[i])
    ensures r.Ok? ==> |r.value| == |catalog|
    ensures r.Ok? ==> forall i :: 0 <= i < |catalog| ==> ProductText(catalog[i], render) == Ok(r.value[i])
    ensures r.Err? ==> exists i :: 0 <= i < |catalog| && ProductText(catalog[i], render) == Err(r.error)
                                   && forall j :: 0 <= j < i ==> TextReady(catalog[j])
  {
    var f := p => ProductText(p, render);
    assert forall i :: 0 <= i < |catalog| ==> f(catalog[i]) == ProductText(catalog[i], render);
    MapAll(f, catalog)
  }

  /** Texts, embeddings and metadata for a catalog. `embed` stands for the
      embedding model, applied to each text. */
  function Build(catalog: seq<Json>, render: Json -> string, embed: string -> Vector): (r: Result<Artifacts>)
    ensures r.Ok? <==> forall i :: 0 <= i < |catalog| ==> TextReady(catalog[i])
    ensures r.Ok? ==> r.value.metadata == catalog && |r.value.vectors| == |r.value.metadata|
    ensures r.Ok? ==> forall i :: 0 <= i < |catalog| ==>
                        r.value.vectors[i] == embed(ProductText(r.value.metadata[i], render).value)
    ensures r.Err? ==> exists i :: 0 <= i < |catalog| && ProductText(catalog[i], render) == Err(r.error)
                                   && forall j :: 0 <= j < i ==> TextReady(catalog[j])
  {
    var texts :- ProductTexts(catalog, render);
    Ok(Artifacts(seq(|texts|, i requires 0 <= i < |texts| => embed(texts[i])), catalog))
  }

}
